=== FILE: README.md ===
# Companies and their compliance filings: a Dafny model

This project models the core of a small CRUD service. The service manages
companies (`Empresa`) and the recurring compliance filings each company owns
(`ObrigacaoAcessoria`). The model has three parts.

- **Validators** (`schema.dfy`, module `Schema`). These are the request-body
  shapes and what validation does to them:
  - `nome`, `email` and `periodicidade` are lower-cased before any other check.
  - A name must be at least 2 characters long.
  - The periodicity must be one of `mensal`, `trimestral` or `anual`.
  - A CNPJ keeps only its digits, and exactly 14 must remain.
  - A body that fails validation is answered with every failing field, in
    declaration order.
- **Store** (`models.dfy`, module `Models`). The two tables are two maps from
  id to record. A validity predicate holds the database constraints: primary
  keys, the unique `cnpj`, and the foreign key from a filing to its company.
  Deleting a company cascades to its filings.
- **Handlers** (`api.dfy`, module `Api`, and `integrity.dfy`, module
  `Integrity`). Each endpoint is a pure transition from the store to a new
  store plus a response.
  - A failure leaves the store unchanged.
  - A success makes exactly the documented change.
  - A database integrity failure is turned into a client message by substring
    search over the lower-cased diagnostic text. The `Integrity` module models
    that search.

`text.dfy` (module `Text`) holds the string functions the service relies on:
ASCII lower-casing, digit filtering, Python's `in` on strings, `join`, and the
decimal rendering of integers. `scenario.dfy` (module `Scenario`) replays the
flow of the repository's integration test on the model.

Quirks of the code that the model keeps:
- `update_empresa` accepts a `telefone` but never stores it.
- `update_empresa` does not handle a `cnpj` that belongs to another company.
  The failed commit reaches the framework uncaught. The model answers 500
  (Internal Server Error) and leaves the store unchanged.
- `create_obrigacao` looks for "nome" in the diagnostic and then ignores the
  result.
- Listing companies when there are none is answered with 404.
- FastAPI answers a body that fails validation with status 422, listing
  every failing field.
- `endereco` and `telefone` are plain `str` fields, so an empty string is
  accepted.
- A failed filing insert is never reported as a name conflict. Only a
  diagnostic that mentions "foreign key" gets a specific message (the missing
  company); any other diagnostic gets the generic "Erro ao cadastrar
  obrigação".

Model choices:
- The e-mail syntax check belongs to an external library. Every validator
  that needs it takes it as a parameter `isEmail: string -> bool`.
- New record ids come from the database. They are a parameter that must be
  fresh for its table.
- The backend's diagnostic text is a parameter. It is read only by the
  classifiers.

## Model

| member | source | states |
|---|---|---|
| `Text.Lower` | schema.py:45-48 | Lower-casing keeps the length, leaves no upper-case ASCII letter, and changes exactly the upper-case letters. |
| `Text.LowerFixpoint` | schema.py:10-13 | A string is unchanged by lower-casing exactly when it is already lower case. |
| `Text.LowerIdempotent` | schema.py:19-22 | Lower-casing twice is the same as lower-casing once. |
| `Text.KeepDigits` | schema.py:40 | Stripping non-digits yields only digit characters and never lengthens the string. |
| `Text.KeepDigitsAppend` | schema.py:40 | Stripping works piecewise: the digits of `a + b` are the digits of `a` followed by those of `b`. |
| `Text.KeepDigitsFixpoint` | schema.py:40 | Stripping leaves a string unchanged exactly when it is made of digits only. |
| `Text.KeepDigitsIdempotent` | schema.py:40 | Stripping twice is the same as stripping once. |
| `Text.KeepDigitsCounts` | schema.py:40 | Every digit survives as many times as it occurs in the input, and no other character survives. |
| `Text.KeepDigitsIsSubsequence` | schema.py:40 | The surviving digits keep their original order: the result is a subsequence of the input. |
| `Text.ContainsIff` | main.py:73 | The scanning substring test agrees with "there is an index where the keyword occurs", in both directions. |
| `Text.NatToDecimal` | main.py:110 | The decimal rendering of a number is a non-empty digit string with no leading zero; zero renders as exactly `0`. |
| `Text.NatToDecimalRoundTrip` | main.py:110 | Reading the rendered digits back gives the original number. |
| `Text.IntToDecimalInjective` | main.py:110 | Different ids render as different text, negative ones included. |
| `Text.Join` | main.py:84 | Python's `sep.join(parts)`: the parts in order with one separator between neighbours; its partners are the three lemmas below. |
| `Text.JoinLength` | main.py:84 | A join is exactly as long as its parts together plus one separator per gap. |
| `Text.JoinOccurs` | main.py:84 | Part `j` sits in the join at exactly the index where the earlier parts and one separator after each of them end, so the join keeps the parts' order. |
| `Text.JoinContainsParts` | main.py:84 | Every part is a substring of the join. |
| `Schema.ValidateNome` | schema.py:6-13 | A name is accepted exactly when it has at least 2 characters. It comes back lower-cased; otherwise the error is a too-short error on that field. |
| `Schema.ValidatePeriodicidade` | schema.py:7-13 | A periodicity is accepted exactly when its lower-cased form is one of the three literals, and it is stored lower-cased. |
| `Schema.ValidateCnpj` | schema.py:37-43 | A CNPJ is accepted exactly when its digits number 14, and it comes back as those digits. Otherwise the error is "CNPJ deve ter 14 digitos!" on `cnpj`. |
| `Schema.ValidateEmail` | schema.py:34-48 | An e-mail is lower-cased before the syntax check and accepted exactly when its lower-cased form passes. |
| `Schema.ValidateEmpresa` | schema.py:30-48 | A company body is accepted exactly when name, CNPJ and e-mail all pass. The result has the name and e-mail lower-cased, the CNPJ as its digits, and address and phone untouched. A rejection carries exactly one error per failing field, in declaration order, each with its reason: too short (minimum 2) for `nome`, "CNPJ deve ter 14 digitos!" for `cnpj`, not an e-mail for `email`. |
| `Schema.ValidateObrigacaoCreate` | schema.py:5-13 | The create shape is accepted exactly when the name and periodicity pass. Both are lower-cased and `empresa_id` is kept. A rejection carries exactly one error per failing field, in order: too short (minimum 2) for `nome`, not one of the three allowed literals for `periodicidade`. |
| `Schema.ValidateObrigacaoUpdate` | schema.py:15-22 | The update shape has the same checks, normalisation and error reasons as the create shape, and its record has no owner field. |
| `Schema.ValidateCnpjIdempotent` | schema.py:40-43 | Re-validating an accepted CNPJ returns it unchanged. |
| `Schema.ValidateCnpjAcceptsStored` | schema.py:40-43 | Any 14-digit string validates to itself. |
| `Schema.ValidateCnpjFormatted` | schema.py:40-43 | A punctuated CNPJ such as `12.345.778/0001-00` is accepted as `12345778000100`. |
| `Schema.ValidateCnpjTooShort` | schema.py:41-42 | A 13-digit CNPJ is rejected with the CNPJ message. |
| `Schema.ValidateEmpresaWithStoredCnpj` | schema.py:30-48 | A body whose CNPJ is already 14 digits validates field by field: name and e-mail are lower-cased, everything else is kept. |
| `Schema.ValidateEmpresaIdempotent` | schema.py:30-48 | A validated company body validates to itself. |
| `Schema.ValidateObrigacaoIdempotent` | schema.py:5-22 | A validated filing body, in either shape, validates to itself. |
| `Schema.PeriodicidadeIgnoresCase` | schema.py:7-13 | `Mensal` is accepted as `mensal`, `TRIMESTRAL` as `trimestral`, and an unlisted periodicity is rejected. |
| `Models.IdsDistinct` | models.py:11-24 | In a store keyed by primary key, no two companies share an id and no two filings share an id. |
| `Models.Valid` | models.py:11-27 | The database constraints: each record is stored under its own primary key, `cnpj` is unique among companies, and every filing's `empresa_id` names a stored company. Every write preserves it. |
| `Models.ObrigacoesOf` | models.py:18-19 | A company's filings are exactly the stored filings whose `empresa_id` is that company's id. |
| `Models.OwnedByExactlyOne` | models.py:27-29 | In a valid store every filing's owner exists, and the filing is listed under its owner and no other company. |
| `Models.CascadeDelete` | models.py:18-27 | Deleting a company removes it and exactly the filings it owns. All other records are unchanged. |
| `Models.CascadeDeletePreservesValid` | models.py:11-27 | The cascading delete keeps the primary keys, the unique `cnpj` and the foreign key intact. |
| `Models.DeleteWithoutCascadeBreaksForeignKey` | models.py:27 | Removing only the company row, while it owns a filing, would break the foreign key. |
| `Integrity.MentionedMembers` | main.py:72-80 | The reference classifier lists a label exactly when its keyword occurs in the message. |
| `Integrity.MentionedIsSubsequence` | main.py:72-80 | The reference classifier's labels form a subsequence of the label table: they keep table order, and for a table of distinct labels, such as CNPJ, Nome, E-mail, Telefone, each appears at most once. |
| `Integrity.DuplicateFields` | main.py:72-80 | The four chained keyword tests give exactly the table-driven reference classification. |
| `Integrity.DuplicateFieldsSpec` | main.py:72-80 | CNPJ, Nome, E-mail and Telefone are listed exactly when `cnpj`, `nome`, `email` and `telefone` occur in the message, in that fixed order. |
| `Integrity.EmpresaConflictDetail` | main.py:70-87 | The generic "Dados duplicados" message is used exactly when no keyword occurs in the lower-cased diagnostic. Any other message is the prefix followed by the collected labels joined with ", ", so a diagnostic mentioning `cnpj` names CNPJ first. |
| `Integrity.EmpresaConflictDetailLists` | main.py:70-87 | A non-generic message lists exactly the labels whose column name occurs in the lower-cased diagnostic, each once, in the order CNPJ, Nome, E-mail, Telefone; the generic message is used exactly when that list is empty. |
| `Integrity.EmpresaConflictDetailNamesFields` | main.py:72-85 | Every field whose column name occurs in the lower-cased diagnostic is named, as its label, in the detail the client reads. |
| `Integrity.EmpresaNotFoundDetail` | main.py:110 | The missing-owner message embeds the requested id in decimal; its partner `EmpresaNotFoundDetailInjective` shows the id can be read back from it. |
| `Integrity.ObrigacaoConflictDetail` | main.py:103-112 | A diagnostic mentioning "foreign key" gives "Empresa com o ID <id> não encontrada". Any other diagnostic gives "Erro ao cadastrar obrigação". |
| `Integrity.ObrigacaoDetailIgnoresNome` | main.py:105-112 | Two diagnostics that agree on "foreign key" give the same message, whatever they say about "nome". |
| `Integrity.EmpresaNotFoundDetailInjective` | main.py:110 | The not-found message identifies the requested id: different ids give different messages. |
| `Api.GetEmpresa` | main.py:29-38 | A lookup succeeds with 200 exactly when the id is stored. It returns the company with exactly its filings; otherwise it answers 404 "Empresa não encontrada". |
| `Api.GetEmpresas` | main.py:44-52 | Listing answers 404 exactly when there is no company. Otherwise it returns every company, each as a single lookup would. |
| `Api.CreateEmpresa` | main.py:59-87 | An insert succeeds with 201 exactly when the CNPJ is unregistered. It then adds one company under the fresh id with the validated fields, changes nothing else, and answers with the stored row and exactly the filings that name it. Otherwise the store is rolled back and the answer is 400 with the classified message. Validity is preserved. |
| `Api.CreateObrigacao` | main.py:93-112 | An insert succeeds with 201 exactly when the owner exists, adding one filing and nothing else. Otherwise the store is unchanged and the answer is 400 with the classified message. Validity is preserved. |
| `Api.UpdateEmpresa` | main.py:121-139 | A missing id gives 404 and a CNPJ held by another company gives 500 "Internal Server Error", both with no change. Otherwise the answer is 202: only `nome`, `email`, `endereco` and `cnpj` are replaced, and `telefone`, the id, other companies and all filings stay as they were. |
| `Api.UpdateObrigacao` | main.py:147-162 | A missing id gives 404 with no change. Otherwise the answer is 202: only `nome` and `periodicidade` are replaced, and the id, the owner and every other record stay as they were. |
| `Api.DeleteEmpresa` | main.py:169-177 | A missing id gives 404 with no change. Otherwise the answer is 200: the company and exactly its filings are removed, nothing else changes, and validity is preserved. |
| `Api.DeleteKeepsNormalised` | main.py:169-177 | Deleting a company keeps every remaining company and filing in validated form, so the normalisation invariant holds across every write. |
| `Api.PostEmpresa` | main.py:54-87 | An invalid body is answered with its field errors and no store access. Creation succeeds exactly when the body validates and its normalised CNPJ is free; it then stores one company under the new id with lower-cased name and e-mail, the CNPJ's 14 digits, and address and phone as sent, changes nothing else, and answers 201 with that record. A valid body whose CNPJ is taken gets 400 with the classified message. Stored contents stay normalised. |
| `Api.PostObrigacao` | main.py:89-112 | An invalid body is answered with its field errors. Creation succeeds exactly when the body validates and its owner exists; it then stores one filing with lower-case name and periodicity under the named owner, changes nothing else, and answers 201 with it. A valid body with a missing owner gets 400 with the classified message. |
| `Api.PutEmpresa` | main.py:115-139 | The body is validated before the lookup. Success needs a valid body, an existing id and a CNPJ no other company holds; it replaces exactly that company's name and e-mail (lower-cased), address and CNPJ digits, keeps its phone number, and changes nothing else. A valid body for a missing id gets 404, and one with another company's CNPJ gets 500. Stored contents stay normalised. |
| `Api.PutObrigacao` | main.py:141-162 | An update succeeds exactly when the body validates and the id exists; it replaces exactly that filing's name and periodicity with their lower-cased values, keeps its owner, changes nothing else, and answers 202 with it. A valid body for a missing id gets 404. Stored filings stay normalised. |
| `Api.DeleteIsFinal` | main.py:169-177 | After a delete, looking the company up gives 404, deleting it again fails, and updating any filing it owned gives 404. |
| `Api.DuplicateCnpjRefused` | main.py:67-87 | A second company whose CNPJ normalises to a registered one is refused with 400 and the store is unchanged. With a diagnostic mentioning `cnpj`, the message names CNPJ. |
| `Api.CreatedEmpresaHasNoObrigacoes` | main.py:59-65 | Under the foreign key, a freshly created company is returned with no filings. |
| `Api.CreateThenGet` | main.py:29-65 | A created company reads back exactly as returned, with its CNPJ stored as 14 digits. |
| `Scenario.NovaEmpresaValidates` | test.py:13-27 | The test's company body validates with its name lower-cased to `empresa teste nova`. |
| `Scenario.EmpresaAtualizadaValidates` | test.py:58-70 | The test's update body validates with its name lower-cased to `empresa teste atualizada`. |
| `Scenario.NovaObrigacaoValidates` | test.py:42-55 | The test's filing body validates with `Testing` and `Mensal` becoming `testing` and `mensal`. |
| `Scenario.TestSuiteFlow` | test.py:13-77 | Replaying the test: create gives 201, list and fetch give 200, attach gives 201, update gives 202 with the new e-mail visible, delete gives 200, and the final fetch gives 404 with the filing gone. |

## Left out

- HTTP routing, decorators, `async`, `HTTPException` and `JSONResponse`: a response is a tagged value with a status and a detail.
- The database session (`add`, `commit`, `refresh`, `rollback`, eager-loading options) and `database.generate_db`, which is not part of this model: each handler is one atomic transition of an abstract store.
- Id generation: the id of a new record is a parameter that must be absent from its table.
- Which integrity failures a real engine reports, and their exact text: the unique index and the foreign key are enforced as intended, and the diagnostic is an arbitrary string.
- E-mail syntax (`EmailStr`): a parameter predicate. Any further normalisation done by the e-mail library is not modelled.
- `Text.Lower`: only ASCII letters are lower-cased. Python's `str.lower` also maps other Unicode letters, and can change a string's length.
- `Text.KeepDigits`: only ASCII `0`-`9` count as digits. Python's `\D` keeps every Unicode decimal digit.
- Missing and extra body fields: pydantic answers a missing field with a 422 "missing" error and silently drops an unknown one (an `empresa_id` in a filing update, say); the model's body records always carry exactly their declared fields.
- Non-string JSON values and pydantic's type coercion: the `isinstance` test in the lower-casing validators always sees a string here, and `empresa_id` is an integer.
- The wording of pydantic's own error messages: a field error carries a reason (too short, not an allowed literal, not an e-mail, or a validator message) and not its text.
- The order of returned lists: the company list and a company's filings are maps keyed by id.
- Response serialisation (`EmpresaResponse`, `ObrigacaoAcessoriaResponse`): handlers return the stored records.
- The integration test's HTTP client, server address and module-level ids.
- Concurrency and transaction isolation: requests are applied one at a time.

=== FILE: api.dfy ===
/**
 The request handlers as transitions of the store. Each handler takes the
 store and its arguments and gives back the store after the request together
 with the answer: a success carrying a status and a value, a failure
 carrying a status and a detail message, or (for a body that fails
 validation) the field errors the framework answers with status 422.

 Writes are atomic: every failure leaves the store exactly as it was, every
 success makes exactly the documented change. Reads return only an answer,
 so they cannot change the store.

 Ids of new records come from the database; here they are a parameter that
 must be fresh. The text of a database integrity failure is a parameter
 too: it is only consulted by the classifiers of the Integrity module.
 */
module Api {
  import opened Text
  import opened Schema
  import opened Models
  import opened Integrity

  const StatusOk: int := 200
  const StatusCreated: int := 201
  const StatusAccepted: int := 202
  const StatusBadRequest: int := 400
  const StatusNotFound: int := 404
  const StatusUnprocessable: int := 422
  const StatusServerError: int := 500

  const EmpresaNotFound: string := "Empresa não encontrada"
  const NoEmpresas: string := "Nenhuma empresa cadastrada"
  const UpdateEmpresaNotFound: string := "Nenhuma empresa encontrada com o ID fornecido"
  const UpdateObrigacaoNotFound: string := "Nenhuma obrigação encontrada com o id fornecido"
  const Deleted: string := "Deletado com sucesso"
  const ServerError: string := "Internal Server Error"

  datatype Response<T> =
    | Ok(status: int, value: T)
    | Fail(status: int, detail: string)
    | Unprocessable(errors: seq<FieldError>)
  {
    function Status(): int {
      match this
      case Ok(s, _) => s
      case Fail(s, _) => s
      case Unprocessable(_) => StatusUnprocessable
    }
  }

  /** The store after a request, and the answer to it. */
  datatype Step<T> = Step(db: Db, response: Response<T>)

  /** A company as the API returns it: the record with its obligations. */
  datatype EmpresaView = EmpresaView(empresa: Empresa, obrigacoes: map<int, Obrigacao>)

  function View(db: Db, id: int): EmpresaView
    requires id in db.empresas
  {
    EmpresaView(db.empresas[id], ObrigacoesOf(db, id))
  }

  /** Some company is registered under `cnpj`. */
  predicate CnpjRegistered(db: Db, cnpj: string) {
    exists k :: k in db.empresas && db.empresas[k].cnpj == cnpj
  }

  /* ---------------------------------------------------------------------- */
  /* Normalised contents                                                     */
  /* ---------------------------------------------------------------------- */

  /** Every stored company looks as validation leaves a company body. */
  ghost predicate EmpresasNormalised(db: Db, isEmail: string -> bool) {
    forall k :: k in db.empresas ==>
      var e := db.empresas[k];
      IsNome(e.nome) && IsCnpj(e.cnpj) && IsLowerCase(e.email) && isEmail(e.email)
  }

  /** Every stored obligation has a lower-case name and an allowed periodicity. */
  ghost predicate ObrigacoesNormalised(db: Db) {
    forall k :: k in db.obrigacoes ==> WellFormedObrigacao(db.obrigacoes[k].nome, db.obrigacoes[k].periodicidade)
  }

  /* ---------------------------------------------------------------------- */
  /* Reads                                                                   */
  /* ---------------------------------------------------------------------- */

  /** GET /empresas/{id}: the company with its obligations. */
  function GetEmpresa(db: Db, id: int): (r: Response<EmpresaView>)
    ensures r.Ok? <==> id in db.empresas
    ensures r.Ok? ==>
      && r.status == StatusOk
      && r.value.empresa == db.empresas[id]
      && (forall k :: k in r.value.obrigacoes <==> k in db.obrigacoes && db.obrigacoes[k].empresaId == id)
      && (forall k :: k in r.value.obrigacoes ==> r.value.obrigacoes[k] == db.obrigacoes[k])
    ensures r.Ok? && KeyedById(db) ==> r.value.empresa.id == id
    ensures r.Fail? ==> r.status == StatusNotFound && r.detail == EmpresaNotFound
    ensures !r.Unprocessable?
  {
    if id in db.empresas then Ok(StatusOk, View(db, id)) else Fail(StatusNotFound, EmpresaNotFound)
  }

  /** GET /empresas: every company with its obligations, keyed by id; an empty
      table is answered with 404 rather than an empty collection. */
  function GetEmpresas(db: Db): (r: Response<map<int, EmpresaView>>)
    ensures r.Fail? <==> |db.empresas| == 0
    ensures r.Fail? ==> r.status == StatusNotFound && r.detail == NoEmpresas
    ensures r.Ok? ==>
      && r.status == StatusOk
      && r.value.Keys == db.empresas.Keys
      && (forall k :: k in r.value ==> GetEmpresa(db, k) == Ok(StatusOk, r.value[k]))
    ensures !r.Unprocessable?
  {
    if |db.empresas| == 0 then Fail(StatusNotFound, NoEmpresas)
    else Ok(StatusOk, map k | k in db.empresas :: View(db, k))
  }

  /* ---------------------------------------------------------------------- */
  /* Writes on validated bodies                                              */
  /* ---------------------------------------------------------------------- */

  /** POST /empresas/ once the body is validated: insert the company under the
      fresh id, or roll back when the unique index on `cnpj` refuses it. */
  function CreateEmpresa(db: Db, v: EmpresaCreate, id: int, diagnostic: string): (r: Step<EmpresaView>)
    requires id !in db.empresas
    ensures r.response.Ok? <==> !CnpjRegistered(db, v.cnpj)
    ensures r.response.Ok? ==>
      && r.response.status == StatusCreated
      && r.db.empresas.Keys == db.empresas.Keys + {id}
      && r.db.empresas[id] == Empresa(id, v.nome, v.cnpj, v.endereco, v.email, v.telefone)
      && (forall k :: k in db.empresas ==> r.db.empresas[k] == db.empresas[k])
      && r.db.obrigacoes == db.obrigacoes
      && r.response.value == View(r.db, id)
    ensures !r.response.Ok? ==>
      && r.db == db
      && r.response == Fail(StatusBadRequest, EmpresaConflictDetail(diagnostic))
    ensures Valid(db) ==> Valid(r.db)
  {
    if CnpjRegistered(db, v.cnpj) then
      Step(db, Fail(StatusBadRequest, EmpresaConflictDetail(diagnostic)))
    else
      var db' := db.(empresas := db.empresas[id := Empresa(id, v.nome, v.cnpj, v.endereco, v.email, v.telefone)]);
      Step(db', Ok(StatusCreated, View(db', id)))
  }

  /** POST /obrigacoes/ once the body is validated: insert the obligation
      under the fresh id, or roll back when the foreign key refuses it. */
  function CreateObrigacao(db: Db, v: ObrigacaoCreate, id: int, diagnostic: string): (r: Step<Obrigacao>)
    requires id !in db.obrigacoes
    ensures r.response.Ok? <==> v.empresaId in db.empresas
    ensures r.response.Ok? ==>
      && r.response.status == StatusCreated
      && r.response.value == Obrigacao(id, v.nome, v.periodicidade, v.empresaId)
      && r.db.obrigacoes.Keys == db.obrigacoes.Keys + {id}
      && r.db.obrigacoes[id] == r.response.value
      && (forall k :: k in db.obrigacoes ==> r.db.obrigacoes[k] == db.obrigacoes[k])
      && r.db.empresas == db.empresas
    ensures !r.response.Ok? ==>
      && r.db == db
      && r.response == Fail(StatusBadRequest, ObrigacaoConflictDetail(diagnostic, v.empresaId))
    ensures Valid(db) ==> Valid(r.db)
  {
    if v.empresaId !in db.empresas then
      Step(db, Fail(StatusBadRequest, ObrigacaoConflictDetail(diagnostic, v.empresaId)))
    else
      var o := Obrigacao(id, v.nome, v.periodicidade, v.empresaId);
      Step(db.(obrigacoes := db.obrigacoes[id := o]), Ok(StatusCreated, o))
  }

  /** PUT /empresas/{id} once the body is validated: overwrite `nome`,
      `email`, `endereco` and `cnpj`; `telefone` is left as it was. A `cnpj`
      that belongs to another company makes the commit fail, and nothing
      catches that failure: the answer is a server error and the store is
      unchanged. */
  function UpdateEmpresa(db: Db, id: int, v: EmpresaCreate): (r: Step<EmpresaView>)
    ensures r.response.Fail? && r.response.status == StatusNotFound <==> id !in db.empresas
    ensures r.response.Fail? && r.response.status == StatusNotFound ==> r.response.detail == UpdateEmpresaNotFound
    ensures r.response.Fail? && r.response.status == StatusServerError <==>
      id in db.empresas && CnpjTaken(db, v.cnpj, id)
    ensures r.response.Fail? && r.response.status == StatusServerError ==> r.response.detail == ServerError
    ensures r.response.Ok? <==> id in db.empresas && !CnpjTaken(db, v.cnpj, id)
    ensures !r.response.Ok? ==> r.db == db
    ensures r.response.Ok? ==> r.response.status == StatusAccepted && r.db.empresas.Keys == db.empresas.Keys
    ensures r.response.Ok? ==>
      var before, after := db.empresas[id], r.db.empresas[id];
      && after.nome == v.nome && after.email == v.email && after.endereco == v.endereco && after.cnpj == v.cnpj
      && after.id == before.id && after.telefone == before.telefone
      && (forall k :: k in db.empresas && k != id ==> r.db.empresas[k] == db.empresas[k])
      && r.db.obrigacoes == db.obrigacoes
      && r.response.value == View(r.db, id)
    ensures !r.response.Unprocessable?
    ensures Valid(db) ==> Valid(r.db)
  {
    if id !in db.empresas then
      Step(db, Fail(StatusNotFound, UpdateEmpresaNotFound))
    else if CnpjTaken(db, v.cnpj, id) then
      Step(db, Fail(StatusServerError, ServerError))
    else
      var e := db.empresas[id].(nome := v.nome, email := v.email, endereco := v.endereco, cnpj := v.cnpj);
      var db' := db.(empresas := db.empresas[id := e]);
      Step(db', Ok(StatusAccepted, View(db', id)))
  }

  /** PUT /obrigacoes/{id} once the body is validated: overwrite `nome` and
      `periodicidade`; the owner cannot change on this path. */
  function UpdateObrigacao(db: Db, id: int, v: ObrigacaoUpdate): (r: Step<Obrigacao>)
    ensures r.response.Ok? <==> id in db.obrigacoes
    ensures !r.response.Ok? ==>
      r.db == db && r.response == Fail(StatusNotFound, UpdateObrigacaoNotFound)
    ensures r.response.Ok? ==>
      var before := db.obrigacoes[id];
      && r.response.status == StatusAccepted
      && r.response.value == Obrigacao(before.id, v.nome, v.periodicidade, before.empresaId)
      && r.db.obrigacoes.Keys == db.obrigacoes.Keys
      && r.db.obrigacoes[id] == r.response.value
      && (forall k :: k in db.obrigacoes && k != id ==> r.db.obrigacoes[k] == db.obrigacoes[k])
      && r.db.empresas == db.empresas
    ensures Valid(db) ==> Valid(r.db)
  {
    if id !in db.obrigacoes then
      Step(db, Fail(StatusNotFound, UpdateObrigacaoNotFound))
    else
      var o := db.obrigacoes[id].(nome := v.nome, periodicidade := v.periodicidade);
      Step(db.(obrigacoes := db.obrigacoes[id := o]), Ok(StatusAccepted, o))
  }

  /** DELETE /empresa/{id}: remove the company and, by cascade, its
      obligations. */
  function DeleteEmpresa(db: Db, id: int): (r: Step<string>)
    ensures r.response.Ok? <==> id in db.empresas
    ensures !r.response.Ok? ==> r.db == db && r.response == Fail(StatusNotFound, EmpresaNotFound)
    ensures r.response.Ok? ==>
      && r.response == Ok(StatusOk, Deleted)
      && r.db.empresas.Keys == db.empresas.Keys - {id}
      && (forall k :: k in r.db.empresas ==> r.db.empresas[k] == db.empresas[k])
      && (forall k :: k in r.db.obrigacoes <==> k in db.obrigacoes && db.obrigacoes[k].empresaId != id)
      && (forall k :: k in r.db.obrigacoes ==> r.db.obrigacoes[k] == db.obrigacoes[k])
    ensures Valid(db) ==> Valid(r.db)
  {
    if id !in db.empresas then Step(db, Fail(StatusNotFound, EmpresaNotFound))
    else
      CascadeDeletePreservesValid(db, id);
      Step(CascadeDelete(db, id), Ok(StatusOk, Deleted))
  }

  /* ---------------------------------------------------------------------- */
  /* Endpoints: validation of the body, then the handler                     */
  /* ---------------------------------------------------------------------- */

  /** POST /empresas/ with a raw body. */
  function PostEmpresa(db: Db, body: EmpresaCreate, isEmail: string -> bool, id: int, diagnostic: string): (r: Step<EmpresaView>)
    requires id !in db.empresas
    ensures ValidateEmpresa(body, isEmail).Rejected? ==>
      r == Step(db, Unprocessable(ValidateEmpresa(body, isEmail).errors))
    ensures r.response.Ok? <==>
      ValidateEmpresa(body, isEmail).Accepted? && !CnpjRegistered(db, KeepDigits(body.cnpj))
    ensures r.response.Ok? ==>
      && r.response.status == StatusCreated
      && r.db.empresas == db.empresas[id := Empresa(id, Lower(body.nome), KeepDigits(body.cnpj), body.endereco, Lower(body.email), body.telefone)]
      && r.db.obrigacoes == db.obrigacoes
      && r.response.value == View(r.db, id)
    ensures ValidateEmpresa(body, isEmail).Accepted? && CnpjRegistered(db, KeepDigits(body.cnpj)) ==>
      r.response == Fail(StatusBadRequest, EmpresaConflictDetail(diagnostic))
    ensures !r.response.Ok? ==> r.db == db
    ensures Valid(db) ==> Valid(r.db)
    ensures EmpresasNormalised(db, isEmail) ==> EmpresasNormalised(r.db, isEmail)
    ensures ObrigacoesNormalised(db) ==> ObrigacoesNormalised(r.db)
  {
    match ValidateEmpresa(body, isEmail)
    case Rejected(errors) => Step(db, Unprocessable(errors))
    case Accepted(v) => CreateEmpresa(db, v, id, diagnostic)
  }

  /** POST /obrigacoes/ with a raw body. */
  function PostObrigacao(db: Db, body: ObrigacaoCreate, id: int, diagnostic: string): (r: Step<Obrigacao>)
    requires id !in db.obrigacoes
    ensures ValidateObrigacaoCreate(body).Rejected? ==>
      r == Step(db, Unprocessable(ValidateObrigacaoCreate(body).errors))
    ensures r.response.Ok? <==> ValidateObrigacaoCreate(body).Accepted? && body.empresaId in db.empresas
    ensures r.response.Ok? ==>
      && r.response == Ok(StatusCreated, Obrigacao(id, Lower(body.nome), Lower(body.periodicidade), body.empresaId))
      && r.db.obrigacoes == db.obrigacoes[id := r.response.value]
    ensures ValidateObrigacaoCreate(body).Accepted? && body.empresaId !in db.empresas ==>
      r.response == Fail(StatusBadRequest, ObrigacaoConflictDetail(diagnostic, body.empresaId))
    ensures !r.response.Ok? ==> r.db == db
    ensures Valid(db) ==> Valid(r.db)
    ensures r.db.empresas == db.empresas
    ensures ObrigacoesNormalised(db) ==> ObrigacoesNormalised(r.db)
  {
    match ValidateObrigacaoCreate(body)
    case Rejected(errors) => Step(db, Unprocessable(errors))
    case Accepted(v) => CreateObrigacao(db, v, id, diagnostic)
  }

  /** PUT /empresas/{id} with a raw body: the body is validated before the
      company is looked up. */
  function PutEmpresa(db: Db, id: int, body: EmpresaCreate, isEmail: string -> bool): (r: Step<EmpresaView>)
    ensures ValidateEmpresa(body, isEmail).Rejected? ==>
      r == Step(db, Unprocessable(ValidateEmpresa(body, isEmail).errors))
    ensures r.response.Ok? <==>
      ValidateEmpresa(body, isEmail).Accepted? && id in db.empresas && !CnpjTaken(db, KeepDigits(body.cnpj), id)
    ensures r.response.Ok? ==>
      && r.response.status == StatusAccepted
      && r.db.empresas == db.empresas[id := db.empresas[id].(
           nome := Lower(body.nome), email := Lower(body.email), endereco := body.endereco, cnpj := KeepDigits(body.cnpj))]
      && r.db.obrigacoes == db.obrigacoes
      && r.response.value == View(r.db, id)
    ensures ValidateEmpresa(body, isEmail).Accepted? && id !in db.empresas ==>
      r.response == Fail(StatusNotFound, UpdateEmpresaNotFound)
    ensures ValidateEmpresa(body, isEmail).Accepted? && id in db.empresas && CnpjTaken(db, KeepDigits(body.cnpj), id) ==>
      r.response == Fail(StatusServerError, ServerError)
    ensures !r.response.Ok? ==> r.db == db
    ensures Valid(db) ==> Valid(r.db)
    ensures EmpresasNormalised(db, isEmail) ==> EmpresasNormalised(r.db, isEmail)
    ensures ObrigacoesNormalised(db) ==> ObrigacoesNormalised(r.db)
  {
    match ValidateEmpresa(body, isEmail)
    case Rejected(errors) => Step(db, Unprocessable(errors))
    case Accepted(v) => UpdateEmpresa(db, id, v)
  }

  /** PUT /obrigacoes/{id} with a raw body. */
  function PutObrigacao(db: Db, id: int, body: ObrigacaoUpdate): (r: Step<Obrigacao>)
    ensures ValidateObrigacaoUpdate(body).Rejected? ==>
      r == Step(db, Unprocessable(ValidateObrigacaoUpdate(body).errors))
    ensures r.response.Ok? <==> ValidateObrigacaoUpdate(body).Accepted? && id in db.obrigacoes
    ensures r.response.Ok? ==>
      && r.response == Ok(StatusAccepted, db.obrigacoes[id].(nome := Lower(body.nome), periodicidade := Lower(body.periodicidade)))
      && r.db.obrigacoes == db.obrigacoes[id := r.response.value]
    ensures ValidateObrigacaoUpdate(body).Accepted? && id !in db.obrigacoes ==>
      r.response == Fail(StatusNotFound, UpdateObrigacaoNotFound)
    ensures !r.response.Ok? ==> r.db == db
    ensures Valid(db) ==> Valid(r.db)
    ensures r.db.empresas == db.empresas
    ensures ObrigacoesNormalised(db) ==> ObrigacoesNormalised(r.db)
  {
    match ValidateObrigacaoUpdate(body)
    case Rejected(errors) => Step(db, Unprocessable(errors))
    case Accepted(v) => UpdateObrigacao(db, id, v)
  }

  /* ---------------------------------------------------------------------- */
  /* Properties relating several requests                                    */
  /* ---------------------------------------------------------------------- */

  /** Deleting only removes records, so whatever every stored record
      satisfied before, every remaining one still satisfies: together with
      the write endpoints, stored contents always look validated. */
  lemma DeleteKeepsNormalised(db: Db, id: int, isEmail: string -> bool)
    ensures EmpresasNormalised(db, isEmail) ==> EmpresasNormalised(DeleteEmpresa(db, id).db, isEmail)
    ensures ObrigacoesNormalised(db) ==> ObrigacoesNormalised(DeleteEmpresa(db, id).db)
  {
  }

  /** After a delete, the company is gone for every later request, and so is
      every obligation it owned. */
  lemma DeleteIsFinal(db: Db, id: int, k: int, v: ObrigacaoUpdate)
    requires Valid(db)
    requires id in db.empresas
    requires k in db.obrigacoes && db.obrigacoes[k].empresaId == id
    ensures GetEmpresa(DeleteEmpresa(db, id).db, id) == Fail(StatusNotFound, EmpresaNotFound)
    ensures DeleteEmpresa(DeleteEmpresa(db, id).db, id).response.Fail?
    ensures UpdateObrigacao(DeleteEmpresa(db, id).db, k, v).response == Fail(StatusNotFound, UpdateObrigacaoNotFound)
  {
  }

  /** A second company with an already registered CNPJ, in any spelling, is
      refused with 400 and the first company is untouched. */
  lemma DuplicateCnpjRefused(db: Db, first: int, body: EmpresaCreate, isEmail: string -> bool, id: int, diagnostic: string)
    requires id !in db.empresas
    requires first in db.empresas
    requires ValidateEmpresa(body, isEmail).Accepted?
    requires db.empresas[first].cnpj == KeepDigits(body.cnpj)
    ensures PostEmpresa(db, body, isEmail, id, diagnostic).db == db
    ensures PostEmpresa(db, body, isEmail, id, diagnostic).response.Status() == StatusBadRequest
    ensures Contains(Lower(diagnostic), "cnpj") ==>
      StartsWith(PostEmpresa(db, body, isEmail, id, diagnostic).response.detail, DuplicatePrefix + "CNPJ")
  {
  }

  /** A company just created owns no obligation yet: the foreign key keeps
      every existing obligation attached to an older company. */
  lemma CreatedEmpresaHasNoObrigacoes(db: Db, v: EmpresaCreate, id: int, diagnostic: string)
    requires ForeignKeys(db)
    requires id !in db.empresas
    requires CreateEmpresa(db, v, id, diagnostic).response.Ok?
    ensures CreateEmpresa(db, v, id, diagnostic).response.value.obrigacoes == map[]
  {
    var owned := CreateEmpresa(db, v, id, diagnostic).response.value.obrigacoes;
    assert forall k :: k !in owned;
    assert owned.Keys == {};
  }

  /** Creating a company and reading it back returns what was stored, already
      normalised. */
  lemma CreateThenGet(db: Db, body: EmpresaCreate, isEmail: string -> bool, id: int, diagnostic: string)
    requires Valid(db)
    requires id !in db.empresas
    requires PostEmpresa(db, body, isEmail, id, diagnostic).response.Ok?
    ensures
      var r := PostEmpresa(db, body, isEmail, id, diagnostic);
      GetEmpresa(r.db, id) == Ok(StatusOk, r.response.value)
      && r.response.value.empresa.cnpj == KeepDigits(body.cnpj)
      && IsCnpj(r.response.value.empresa.cnpj)
  {
  }
}

=== FILE: integrity.dfy ===
/**
 How the two create handlers turn a database integrity failure into the
 message the client sees. Both lower-case the backend's diagnostic text
 and search it for keywords:
 - creating a company lists, in the fixed order CNPJ, Nome, E-mail,
   Telefone, each field whose column name occurs in the text, or falls back
   to a generic "duplicated data" message when none does;
 - creating an obligation reports the missing company when the text
   mentions a foreign key, and a generic failure otherwise. It also looks
   for "nome", but that finding is never used.
 The diagnostic is an arbitrary string: which text a given backend produces
 is outside this model.
 */
module Integrity {
  import opened Text

  /** The column names searched for, and the label each one is reported as. */
  const DuplicateKeywords: seq<string> := ["cnpj", "nome", "email", "telefone"]
  const DuplicateLabels: seq<string> := ["CNPJ", "Nome", "E-mail", "Telefone"]

  const DuplicatePrefix: string := "Os seguintes campos já existem: "
  const GenericDuplicateDetail: string := "Erro ao cadastrar empresa: Dados duplicados"
  const ForeignKeyKeyword: string := "foreign key"
  const GenericObrigacaoDetail: string := "Erro ao cadastrar obrigação"

  /** Reference definition: the labels, in table order, whose keyword occurs
      in `message`. */
  function Mentioned(message: string, keywords: seq<string>, labels: seq<string>): seq<string>
    requires |keywords| == |labels|
    decreases |labels|
  {
    if labels == [] then []
    else (if Contains(message, keywords[0]) then [labels[0]] else []) + Mentioned(message, keywords[1..], labels[1..])
  }

  /** The reference definition lists a label exactly when its keyword occurs. */
  lemma {:induction false} MentionedMembers(message: string, keywords: seq<string>, labels: seq<string>)
    requires |keywords| == |labels|
    ensures forall j :: 0 <= j < |labels| && Contains(message, keywords[j]) ==> labels[j] in Mentioned(message, keywords, labels)
    ensures forall x :: x in Mentioned(message, keywords, labels) ==>
      exists j :: 0 <= j < |labels| && labels[j] == x && Contains(message, keywords[j])
    decreases |labels|
  {
    if labels != [] {
      var head := if Contains(message, keywords[0]) then [labels[0]] else [];
      var rest := Mentioned(message, keywords[1..], labels[1..]);
      MentionedMembers(message, keywords[1..], labels[1..]);
      assert Mentioned(message, keywords, labels) == head + rest;
      forall j | 0 <= j < |labels| && Contains(message, keywords[j])
        ensures labels[j] in Mentioned(message, keywords, labels)
      {
        if j > 0 {
          assert labels[1..][j - 1] == labels[j] && keywords[1..][j - 1] == keywords[j];
        }
      }
      forall x | x in Mentioned(message, keywords, labels)
        ensures exists j :: 0 <= j < |labels| && labels[j] == x && Contains(message, keywords[j])
      {
        if x in rest {
          var j :| 0 <= j < |labels[1..]| && labels[1..][j] == x && Contains(message, keywords[1..][j]);
          assert labels[j + 1] == x && Contains(message, keywords[j + 1]);
        } else {
          assert x == labels[0] && Contains(message, keywords[0]);
        }
      }
    }
  }

  /** The reference definition keeps table order: its result is a
      subsequence of the labels. */
  lemma {:induction false} MentionedIsSubsequence(message: string, keywords: seq<string>, labels: seq<string>)
    requires |keywords| == |labels|
    ensures IsSubsequence(Mentioned(message, keywords, labels), labels)
    decreases |labels|
  {
    if labels != [] {
      var rest := Mentioned(message, keywords[1..], labels[1..]);
      MentionedIsSubsequence(message, keywords[1..], labels[1..]);
      if Contains(message, keywords[0]) {
        assert ([labels[0]] + rest)[1..] == rest;
      } else {
        assert Mentioned(message, keywords, labels) == rest;
        SubsequenceOfTail(rest, labels);
      }
    }
  }

  /** The fields a company-insert diagnostic (already lower-cased) names,
      checked one keyword after the other as the handler does; they are the
      ones the reference definition lists. */
  function DuplicateFields(message: string): (fields: seq<string>)
    ensures fields == Mentioned(message, DuplicateKeywords, DuplicateLabels)
  {
    var k0, l0 := DuplicateKeywords, DuplicateLabels;
    var k1, l1 := k0[1..], l0[1..];
    var k2, l2 := k1[1..], l1[1..];
    var k3, l3 := k2[1..], l2[1..];
    assert k0[0] == "cnpj" && k1[0] == "nome" && k2[0] == "email" && k3[0] == "telefone";
    assert l0[0] == "CNPJ" && l1[0] == "Nome" && l2[0] == "E-mail" && l3[0] == "Telefone";
    assert Mentioned(message, k3[1..], l3[1..]) == [];
    (if Contains(message, "cnpj") then ["CNPJ"] else [])
    + ((if Contains(message, "nome") then ["Nome"] else [])
    + ((if Contains(message, "email") then ["E-mail"] else [])
    + ((if Contains(message, "telefone") then ["Telefone"] else []) + [])))
  }

  /** A field is listed exactly when its keyword occurs, at most once, and
      the list follows the fixed order CNPJ, Nome, E-mail, Telefone. */
  lemma DuplicateFieldsSpec(message: string)
    ensures forall j :: 0 <= j < |DuplicateLabels| ==>
      (DuplicateLabels[j] in DuplicateFields(message) <==> Contains(message, DuplicateKeywords[j]))
    ensures IsSubsequence(DuplicateFields(message), DuplicateLabels)
  {
    MentionedMembers(message, DuplicateKeywords, DuplicateLabels);
    MentionedIsSubsequence(message, DuplicateKeywords, DuplicateLabels);
  }

  /** The detail of the 400 answer to a failed company insert. */
  function EmpresaConflictDetail(diagnostic: string): (detail: string)
    ensures detail == GenericDuplicateDetail <==>
      forall j :: 0 <= j < |DuplicateKeywords| ==> !Contains(Lower(diagnostic), DuplicateKeywords[j])
    ensures detail != GenericDuplicateDetail ==>
      detail == DuplicatePrefix + Join(DuplicateFields(Lower(diagnostic)), ", ")
    ensures Contains(Lower(diagnostic), "cnpj") ==> StartsWith(detail, DuplicatePrefix + "CNPJ")
  {
    var fields := DuplicateFields(Lower(diagnostic));
    if fields != [] then
      assert (DuplicatePrefix + Join(fields, ", "))[0] != GenericDuplicateDetail[0];
      JoinStartsWithFirst(fields, ", ");
      StartsWithPrepend(DuplicatePrefix, Join(fields, ", "), fields[0]);
      DuplicatePrefix + Join(fields, ", ")
    else
      GenericDuplicateDetail
  }

  /** A non-generic detail lists exactly the fields whose column name occurs
      in the diagnostic, each once, in the order CNPJ, Nome, E-mail, Telefone. */
  lemma EmpresaConflictDetailLists(diagnostic: string)
    ensures var fields := DuplicateFields(Lower(diagnostic));
      && (EmpresaConflictDetail(diagnostic) == GenericDuplicateDetail <==> fields == [])
      && (fields != [] ==> EmpresaConflictDetail(diagnostic) == DuplicatePrefix + Join(fields, ", "))
      && (forall j :: 0 <= j < |DuplicateLabels| ==>
            (DuplicateLabels[j] in fields <==> Contains(Lower(diagnostic), DuplicateKeywords[j])))
      && IsSubsequence(fields, DuplicateLabels)
  {
    DuplicateFieldsSpec(Lower(diagnostic));
  }

  /** Every field whose column name occurs in the diagnostic is named in the
      detail the client reads. */
  lemma EmpresaConflictDetailNamesFields(diagnostic: string)
    ensures forall j :: 0 <= j < |DuplicateLabels| && Contains(Lower(diagnostic), DuplicateKeywords[j]) ==>
      Contains(EmpresaConflictDetail(diagnostic), DuplicateLabels[j])
  {
    var fields := DuplicateFields(Lower(diagnostic));
    DuplicateFieldsSpec(Lower(diagnostic));
    JoinContainsParts(fields, ", ");
    forall j | 0 <= j < |DuplicateLabels| && Contains(Lower(diagnostic), DuplicateKeywords[j])
      ensures Contains(EmpresaConflictDetail(diagnostic), DuplicateLabels[j])
    {
      var k :| 0 <= k < |fields| && fields[k] == DuplicateLabels[j];
      ContainsAfterPrefix(DuplicatePrefix, Join(fields, ", "), fields[k]);
    }
  }

  /** The detail of the 400 answer when the owner of a new obligation is missing. */
  function EmpresaNotFoundDetail(empresaId: int): string {
    "Empresa com o ID " + IntToDecimal(empresaId) + " não encontrada"
  }

  /** The detail of the 400 answer to a failed obligation insert. */
  function ObrigacaoConflictDetail(diagnostic: string, empresaId: int): (detail: string)
    ensures Contains(Lower(diagnostic), ForeignKeyKeyword) ==> detail == EmpresaNotFoundDetail(empresaId)
    ensures !Contains(Lower(diagnostic), ForeignKeyKeyword) ==> detail == GenericObrigacaoDetail
  {
    var message := Lower(diagnostic);
    // The handler also collects "Nome" when the message mentions "nome", and
    // then discards it: that search has no effect on the answer.
    if Contains(message, ForeignKeyKeyword) then EmpresaNotFoundDetail(empresaId) else GenericObrigacaoDetail
  }

  /** Only the foreign-key keyword decides the answer: two diagnostics that
      agree on it yield the same detail, whatever they say about "nome". */
  lemma ObrigacaoDetailIgnoresNome(d1: string, d2: string, empresaId: int)
    requires Contains(Lower(d1), ForeignKeyKeyword) == Contains(Lower(d2), ForeignKeyKeyword)
    ensures ObrigacaoConflictDetail(d1, empresaId) == ObrigacaoConflictDetail(d2, empresaId)
  {
  }

  /** The not-found detail names the company: different ids give different
      messages. */
  lemma EmpresaNotFoundDetailInjective(a: int, b: int)
    ensures EmpresaNotFoundDetail(a) == EmpresaNotFoundDetail(b) ==> a == b
  {
    var prefix := "Empresa com o ID ";
    var suffix := " não encontrada";
    if EmpresaNotFoundDetail(a) == EmpresaNotFoundDetail(b) {
      var da, db := IntToDecimal(a), IntToDecimal(b);
      assert prefix + da + suffix == prefix + db + suffix;
      assert |da| == |db|;
      assert da == (prefix + da + suffix)[|prefix|..|prefix| + |da|];
      assert db == (prefix + db + suffix)[|prefix|..|prefix| + |db|];
      IntToDecimalInjective(a, b);
    }
  }
}

=== FILE: models.dfy ===
/**
 The persisted records and the store that holds them: the tables `Empresa`
 and `ObrigacaoAcessoria`. The store is two maps keyed by primary key. Its
 validity predicate collects the database constraints: primary keys match
 the records' ids, `cnpj` is unique among companies, and every obligation's
 `empresa_id` names an existing company (the foreign key). Every column is
 `nullable=False`, which the record types give for free: a field always
 holds a string.
 */
module Models {

  datatype Empresa = Empresa(
    id: int,
    nome: string,
    cnpj: string,
    endereco: string,
    email: string,
    telefone: string)

  datatype Obrigacao = Obrigacao(
    id: int,
    nome: string,
    periodicidade: string,
    empresaId: int)

  datatype Db = Db(empresas: map<int, Empresa>, obrigacoes: map<int, Obrigacao>)

  /** Primary keys: each record is filed under its own id. */
  ghost predicate KeyedById(db: Db) {
    && (forall k :: k in db.empresas ==> db.empresas[k].id == k)
    && (forall k :: k in db.obrigacoes ==> db.obrigacoes[k].id == k)
  }

  /** The unique index on `cnpj`. */
  ghost predicate UniqueCnpj(db: Db) {
    forall a, b :: a in db.empresas && b in db.empresas && db.empresas[a].cnpj == db.empresas[b].cnpj ==> a == b
  }

  /** The foreign key from obligations to companies. */
  ghost predicate ForeignKeys(db: Db) {
    forall k :: k in db.obrigacoes ==> db.obrigacoes[k].empresaId in db.empresas
  }

  ghost predicate Valid(db: Db) {
    KeyedById(db) && UniqueCnpj(db) && ForeignKeys(db)
  }

  /** No two stored records of one table carry the same id. */
  lemma IdsDistinct(db: Db)
    requires KeyedById(db)
    ensures forall a, b :: a in db.empresas && b in db.empresas && a != b ==> db.empresas[a].id != db.empresas[b].id
    ensures forall a, b :: a in db.obrigacoes && b in db.obrigacoes && a != b ==> db.obrigacoes[a].id != db.obrigacoes[b].id
  {
  }

  /** Some company other than `except` is registered under `cnpj`. */
  predicate CnpjTaken(db: Db, cnpj: string, except: int) {
    exists k :: k in db.empresas && k != except && db.empresas[k].cnpj == cnpj
  }

  /** The relationship `Empresa.obrigacoes_acessorias`: the obligations whose
      `empresa_id` is the given company, keyed by their ids. */
  function ObrigacoesOf(db: Db, empresaId: int): (r: map<int, Obrigacao>)
    ensures forall k :: k in r <==> k in db.obrigacoes && db.obrigacoes[k].empresaId == empresaId
    ensures forall k :: k in r ==> r[k] == db.obrigacoes[k]
  {
    map k | k in db.obrigacoes && db.obrigacoes[k].empresaId == empresaId :: db.obrigacoes[k]
  }

  /** In a valid store each obligation is owned by exactly one existing
      company: it shows up under its owner and under no other company. */
  lemma OwnedByExactlyOne(db: Db, k: int, empresaId: int)
    requires Valid(db)
    requires k in db.obrigacoes
    ensures db.obrigacoes[k].empresaId in db.empresas
    ensures k in ObrigacoesOf(db, empresaId) <==> empresaId == db.obrigacoes[k].empresaId
  {
  }

  /** Deleting a company with `ondelete="CASCADE"` and
      `cascade="all, delete-orphan"`: the company goes, and with it every
      obligation that names it; nothing else changes. */
  function CascadeDelete(db: Db, empresaId: int): (r: Db)
    ensures r.empresas.Keys == db.empresas.Keys - {empresaId}
    ensures forall k :: k in r.empresas ==> r.empresas[k] == db.empresas[k]
    ensures r.obrigacoes.Keys == db.obrigacoes.Keys - ObrigacoesOf(db, empresaId).Keys
    ensures forall k :: k in r.obrigacoes ==> r.obrigacoes[k] == db.obrigacoes[k]
    ensures ObrigacoesOf(r, empresaId) == map[]
  {
    Db(db.empresas - {empresaId},
       map k | k in db.obrigacoes && db.obrigacoes[k].empresaId != empresaId :: db.obrigacoes[k])
  }

  /** The cascade keeps the store valid; without it the foreign key would
      break as soon as the company had an obligation. */
  lemma CascadeDeletePreservesValid(db: Db, empresaId: int)
    ensures Valid(db) ==> Valid(CascadeDelete(db, empresaId))
  {
  }

  /** Removing only the company row, without the cascade, leaves dangling
      obligations whenever the company owned any. */
  lemma DeleteWithoutCascadeBreaksForeignKey(db: Db, empresaId: int)
    requires Valid(db)
    requires exists k :: k in db.obrigacoes && db.obrigacoes[k].empresaId == empresaId
    ensures !ForeignKeys(Db(db.empresas - {empresaId}, db.obrigacoes))
  {
    var o :| o in db.obrigacoes && db.obrigacoes[o].empresaId == empresaId;
    assert db.obrigacoes[o].empresaId !in db.empresas - {empresaId};
  }
}

=== FILE: scenario.dfy ===
/**
 The integration flow of the repository's test suite, replayed on the
 model: create a company, list and fetch it, attach an obligation with a
 mixed-case periodicity, update the company, delete it and fetch it again.
 The store it starts from is any valid store in which the test's CNPJ is
 free; the ids the database would hand out are parameters.
 */
module Scenario {
  import opened Text
  import opened Schema
  import opened Models
  import opened Api

  const NovaEmpresa: EmpresaCreate :=
    EmpresaCreate("Empresa Teste Nova", TestCnpj, "Rua Teste, 123", "teste@email.com", "81973265467")
  const EmpresaAtualizada: EmpresaCreate :=
    EmpresaCreate("Empresa Teste Atualizada", TestCnpj, "Rua Nova, 456", "atualizado@email.com", "81973265467")

  const TestCnpj: string := "12345778000100"

  const NovaObrigacao: ObrigacaoCreate := ObrigacaoCreate("Testing", "Mensal", 0)

  // The lemmas below take the test's bodies as parameters equal to the
  // constants above, so that the verifier reasons about them symbolically
  // instead of unfolding every validator on the literal strings.

  /** The test's names and periodicity lower-case as expected. */
  lemma LowerTestStrings(s: string, lowered: string)
    requires
      || (s == "Empresa Teste Nova" && lowered == "empresa teste nova")
      || (s == "Empresa Teste Atualizada" && lowered == "empresa teste atualizada")
      || (s == "Testing" && lowered == "testing")
      || (s == "Mensal" && lowered == "mensal")
    ensures Lower(s) == lowered
  {
    assert forall i :: 0 <= i < |s| ==> Lower(s)[i] == lowered[i];
  }

  lemma NovaEmpresaValidates(body: EmpresaCreate, isEmail: string -> bool)
    requires body == NovaEmpresa
    requires isEmail("teste@email.com")
    ensures ValidateEmpresa(body, isEmail) ==
      Accepted(EmpresaCreate("empresa teste nova", TestCnpj, "Rua Teste, 123", "teste@email.com", "81973265467"))
  {
    assert IsCnpj(body.cnpj);
    LowerFixpoint(body.email);
    LowerTestStrings(body.nome, "empresa teste nova");
    ValidateEmpresaWithStoredCnpj(body, isEmail);
  }

  lemma EmpresaAtualizadaValidates(body: EmpresaCreate, isEmail: string -> bool)
    requires body == EmpresaAtualizada
    requires isEmail("atualizado@email.com")
    ensures ValidateEmpresa(body, isEmail) ==
      Accepted(EmpresaCreate("empresa teste atualizada", TestCnpj, "Rua Nova, 456", "atualizado@email.com", "81973265467"))
  {
    assert IsCnpj(body.cnpj);
    LowerFixpoint(body.email);
    LowerTestStrings(body.nome, "empresa teste atualizada");
    ValidateEmpresaWithStoredCnpj(body, isEmail);
  }

  lemma NovaObrigacaoValidates(body: ObrigacaoCreate)
    requires body.nome == NovaObrigacao.nome && body.periodicidade == NovaObrigacao.periodicidade
    ensures ValidateObrigacaoCreate(body) == Accepted(ObrigacaoCreate("testing", "mensal", body.empresaId))
  {
    LowerTestStrings(body.nome, "testing");
    LowerTestStrings(body.periodicidade, "mensal");
  }

  /** The whole flow: every request gets the status the test expects, names
      come back lower-cased, and after the delete the company and its
      obligation are gone. */
  lemma TestSuiteFlow(
    db: Db, isEmail: string -> bool, nova: EmpresaCreate, atualizada: EmpresaCreate, obrigacao: ObrigacaoCreate,
    empresaId: int, obrigacaoId: int, diagnostic: string)
    requires Valid(db)
    requires nova == NovaEmpresa && atualizada == EmpresaAtualizada
    requires obrigacao == NovaObrigacao.(empresaId := empresaId)
    requires empresaId !in db.empresas && obrigacaoId !in db.obrigacoes
    requires !CnpjRegistered(db, TestCnpj)
    requires isEmail("teste@email.com") && isEmail("atualizado@email.com")
    ensures
      var created := PostEmpresa(db, nova, isEmail, empresaId, diagnostic);
      && created.response.Ok? && created.response.status == StatusCreated
      && created.response.value.empresa.nome == "empresa teste nova"
      && GetEmpresas(created.db).Ok? && empresaId in GetEmpresas(created.db).value
      && GetEmpresa(created.db, empresaId).Ok? && GetEmpresa(created.db, empresaId).value.empresa.id == empresaId
      && var attached := PostObrigacao(created.db, obrigacao, obrigacaoId, diagnostic);
      && attached.response == Ok(StatusCreated, Obrigacao(obrigacaoId, "testing", "mensal", empresaId))
      && var updated := PutEmpresa(attached.db, empresaId, atualizada, isEmail);
      && updated.response.Ok? && updated.response.status == StatusAccepted
      && updated.response.value.empresa.nome == "empresa teste atualizada"
      && GetEmpresa(updated.db, empresaId).Ok?
      && GetEmpresa(updated.db, empresaId).value.empresa.email == "atualizado@email.com"
      && obrigacaoId in GetEmpresa(updated.db, empresaId).value.obrigacoes
      && var deleted := DeleteEmpresa(updated.db, empresaId);
      && deleted.response == Ok(StatusOk, Deleted)
      && GetEmpresa(deleted.db, empresaId) == Fail(StatusNotFound, EmpresaNotFound)
      && obrigacaoId !in deleted.db.obrigacoes
  {
    NovaEmpresaValidates(nova, isEmail);
    EmpresaAtualizadaValidates(atualizada, isEmail);
    NovaObrigacaoValidates(obrigacao);
    var created := PostEmpresa(db, nova, isEmail, empresaId, diagnostic);
    assert created.response.Ok?;
    assert created.response.value.empresa.nome == "empresa teste nova";
    assert created.db.empresas[empresaId].cnpj == TestCnpj;
    var attached := PostObrigacao(created.db, obrigacao, obrigacaoId, diagnostic);
    assert attached.response == Ok(StatusCreated, Obrigacao(obrigacaoId, "testing", "mensal", empresaId));
    assert !CnpjTaken(attached.db, TestCnpj, empresaId);
    var updated := PutEmpresa(attached.db, empresaId, atualizada, isEmail);
    assert updated.response.Ok?;
    assert updated.db.obrigacoes[obrigacaoId].empresaId == empresaId;
    var deleted := DeleteEmpresa(updated.db, empresaId);
    assert deleted.response.Ok?;
  }
}

=== FILE: schema.dfy ===
/**
 The request-body shapes of the service and their validators: the pydantic
 models `EmpresaCreate`, `ObrigacaoAcessoriaCreate` and
 `ObrigacaoAcessoriaUpdate`. A body is the record of its raw field values;
 validating it either yields the normalised record or the list of every
 field that failed, in declaration order, as pydantic reports them.

 Checks per field, in the order pydantic applies them:
 - `nome` (all three shapes): lower-cased ("before" validator), then at
   least two characters long;
 - `periodicidade`: lower-cased, then one of the three allowed literals;
 - `cnpj`: reduced to its digits, which must be exactly fourteen;
 - `email`: lower-cased, then checked by the e-mail syntax validator, which is
   a parameter of the validator (the syntax itself belongs to an external
   library);
 - `endereco`, `telefone`, `empresa_id`: taken as given.
 */
module Schema {
  import opened Text

  const MinNomeLength: nat := 2
  const CnpjLength: nat := 14
  const CnpjMessage: string := "CNPJ deve ter 14 digitos!"

  /** The literals `periodicidade` may take. */
  const Periodicidades: seq<string> := ["mensal", "trimestral", "anual"]

  /** Why a field was refused. */
  datatype Issue =
    | TooShort(minLength: nat)             // constr(min_length=...)
    | NotAllowed(allowed: seq<string>)     // Literal[...]
    | NotEmail                             // EmailStr
    | ValueError(message: string)          // a custom validator raised ValueError

  datatype FieldError = FieldError(field: string, issue: Issue)

  /** The outcome of validating one field or one body. */
  datatype Validated<T> = Accepted(value: T) | Rejected(errors: seq<FieldError>)

  function ErrorsOf<T>(v: Validated<T>): seq<FieldError> {
    if v.Rejected? then v.errors else []
  }

  datatype EmpresaCreate = EmpresaCreate(
    nome: string,
    cnpj: string,
    endereco: string,
    email: string,
    telefone: string)

  /** The create shape of an obligation: it names the owning company. */
  datatype ObrigacaoCreate = ObrigacaoCreate(
    nome: string,
    periodicidade: string,
    empresaId: int)

  /** The update shape of an obligation: it has no field for the owner. */
  datatype ObrigacaoUpdate = ObrigacaoUpdate(
    nome: string,
    periodicidade: string)

  /* ---------------------------------------------------------------------- */
  /* Field validators                                                        */
  /* ---------------------------------------------------------------------- */

  predicate IsPeriodicidade(s: string) {
    s in Periodicidades
  }

  /** A name as stored: lower case and at least two characters long. */
  predicate IsNome(s: string) {
    IsLowerCase(s) && |s| >= MinNomeLength
  }

  /** A CNPJ as stored: exactly fourteen digits. */
  predicate IsCnpj(s: string) {
    AllDigits(s) && |s| == CnpjLength
  }

  /** `nome`: lower-cased first, then the minimum length applies. */
  function ValidateNome(field: string, value: string): (r: Validated<string>)
    ensures r.Accepted? <==> |value| >= MinNomeLength
    ensures r.Accepted? ==> r.value == Lower(value) && IsNome(r.value)
    ensures r.Rejected? ==> r.errors == [FieldError(field, TooShort(MinNomeLength))]
  {
    var lowered := Lower(value);
    if |lowered| < MinNomeLength then Rejected([FieldError(field, TooShort(MinNomeLength))])
    else Accepted(lowered)
  }

  /** `periodicidade`: lower-cased first, then matched against the literals,
      so the match ignores ASCII case. */
  function ValidatePeriodicidade(value: string): (r: Validated<string>)
    ensures r.Accepted? <==> Lower(value) in Periodicidades
    ensures r.Accepted? ==> r.value == Lower(value) && IsPeriodicidade(r.value)
    ensures r.Rejected? ==> r.errors == [FieldError("periodicidade", NotAllowed(Periodicidades))]
  {
    var lowered := Lower(value);
    if lowered in Periodicidades then Accepted(lowered)
    else Rejected([FieldError("periodicidade", NotAllowed(Periodicidades))])
  }

  /** `cnpj`: every non-digit is stripped and exactly fourteen digits must
      remain. */
  function ValidateCnpj(value: string): (r: Validated<string>)
    ensures r.Accepted? <==> |KeepDigits(value)| == CnpjLength
    ensures r.Accepted? ==> IsCnpj(r.value) && r.value == KeepDigits(value)
    ensures r.Rejected? ==> r.errors == [FieldError("cnpj", ValueError(CnpjMessage))]
  {
    var digits := KeepDigits(value);
    if |digits| != CnpjLength then Rejected([FieldError("cnpj", ValueError(CnpjMessage))])
    else Accepted(digits)
  }

  /** `email`: lower-cased first, then handed to the syntax validator. */
  function ValidateEmail(value: string, isEmail: string -> bool): (r: Validated<string>)
    ensures r.Accepted? <==> isEmail(Lower(value))
    ensures r.Accepted? ==> r.value == Lower(value) && IsLowerCase(r.value)
    ensures r.Rejected? ==> r.errors == [FieldError("email", NotEmail)]
  {
    var lowered := Lower(value);
    if isEmail(lowered) then Accepted(lowered) else Rejected([FieldError("email", NotEmail)])
  }

  /* ---------------------------------------------------------------------- */
  /* Body validators                                                         */
  /* ---------------------------------------------------------------------- */

  /** A company record as validation leaves it. */
  predicate WellFormedEmpresa(e: EmpresaCreate, isEmail: string -> bool) {
    IsNome(e.nome) && IsCnpj(e.cnpj) && IsLowerCase(e.email) && isEmail(e.email)
  }

  predicate WellFormedObrigacao(nome: string, periodicidade: string) {
    IsNome(nome) && IsPeriodicidade(periodicidade)
  }

  function ValidateEmpresa(body: EmpresaCreate, isEmail: string -> bool): (r: Validated<EmpresaCreate>)
    ensures r.Accepted? <==>
      |body.nome| >= MinNomeLength && |KeepDigits(body.cnpj)| == CnpjLength && isEmail(Lower(body.email))
    ensures r.Accepted? ==>
      && WellFormedEmpresa(r.value, isEmail)
      && r.value.nome == Lower(body.nome)
      && r.value.cnpj == KeepDigits(body.cnpj)
      && r.value.email == Lower(body.email)
      && r.value.endereco == body.endereco
      && r.value.telefone == body.telefone
    ensures r.Rejected? ==>
      r.errors ==
        (if |body.nome| < MinNomeLength then [FieldError("nome", TooShort(MinNomeLength))] else [])
        + (if |KeepDigits(body.cnpj)| != CnpjLength then [FieldError("cnpj", ValueError(CnpjMessage))] else [])
        + (if !isEmail(Lower(body.email)) then [FieldError("email", NotEmail)] else [])
    ensures r.Rejected? ==> |r.errors| > 0
  {
    var nome := ValidateNome("nome", body.nome);
    var cnpj := ValidateCnpj(body.cnpj);
    var email := ValidateEmail(body.email, isEmail);
    if nome.Accepted? && cnpj.Accepted? && email.Accepted? then
      Accepted(EmpresaCreate(nome.value, cnpj.value, body.endereco, email.value, body.telefone))
    else
      Rejected(ErrorsOf(nome) + ErrorsOf(cnpj) + ErrorsOf(email))
  }

  function ValidateObrigacaoCreate(body: ObrigacaoCreate): (r: Validated<ObrigacaoCreate>)
    ensures r.Accepted? <==> |body.nome| >= MinNomeLength && Lower(body.periodicidade) in Periodicidades
    ensures r.Accepted? ==>
      && WellFormedObrigacao(r.value.nome, r.value.periodicidade)
      && r.value.nome == Lower(body.nome)
      && r.value.periodicidade == Lower(body.periodicidade)
      && r.value.empresaId == body.empresaId
    ensures r.Rejected? ==>
      r.errors ==
        (if |body.nome| < MinNomeLength then [FieldError("nome", TooShort(MinNomeLength))] else [])
        + (if Lower(body.periodicidade) !in Periodicidades
           then [FieldError("periodicidade", NotAllowed(Periodicidades))] else [])
    ensures r.Rejected? ==> |r.errors| > 0
  {
    var nome := ValidateNome("nome", body.nome);
    var periodicidade := ValidatePeriodicidade(body.periodicidade);
    if nome.Accepted? && periodicidade.Accepted? then
      Accepted(ObrigacaoCreate(nome.value, periodicidade.value, body.empresaId))
    else
      Rejected(ErrorsOf(nome) + ErrorsOf(periodicidade))
  }

  function ValidateObrigacaoUpdate(body: ObrigacaoUpdate): (r: Validated<ObrigacaoUpdate>)
    ensures r.Accepted? <==> |body.nome| >= MinNomeLength && Lower(body.periodicidade) in Periodicidades
    ensures r.Accepted? ==>
      && WellFormedObrigacao(r.value.nome, r.value.periodicidade)
      && r.value.nome == Lower(body.nome)
      && r.value.periodicidade == Lower(body.periodicidade)
    ensures r.Rejected? ==>
      r.errors ==
        (if |body.nome| < MinNomeLength then [FieldError("nome", TooShort(MinNomeLength))] else [])
        + (if Lower(body.periodicidade) !in Periodicidades
           then [FieldError("periodicidade", NotAllowed(Periodicidades))] else [])
    ensures r.Rejected? ==> |r.errors| > 0
  {
    var nome := ValidateNome("nome", body.nome);
    var periodicidade := ValidatePeriodicidade(body.periodicidade);
    if nome.Accepted? && periodicidade.Accepted? then
      Accepted(ObrigacaoUpdate(nome.value, periodicidade.value))
    else
      Rejected(ErrorsOf(nome) + ErrorsOf(periodicidade))
  }

  /* ---------------------------------------------------------------------- */
  /* Properties of the validators                                            */
  /* ---------------------------------------------------------------------- */

  /** Re-validating an accepted CNPJ gives it back unchanged. */
  lemma ValidateCnpjIdempotent(value: string)
    requires ValidateCnpj(value).Accepted?
    ensures ValidateCnpj(ValidateCnpj(value).value) == ValidateCnpj(value)
  {
    KeepDigitsIdempotent(value);
  }

  /** A stored CNPJ, fourteen digits, validates to itself. */
  lemma ValidateCnpjAcceptsStored(s: string)
    requires IsCnpj(s)
    ensures ValidateCnpj(s) == Accepted(s)
  {
    KeepDigitsFixpoint(s);
  }

  /** A CNPJ written with punctuation is accepted as its fourteen digits. */
  lemma ValidateCnpjFormatted(s: string)
    requires s == "12.345.778/0001-00"
    ensures ValidateCnpj(s) == Accepted("12345778000100")
  {
    var tail3 := "00";
    var tail2 := "0001" + ['-'] + tail3;
    var tail1 := "778" + ['/'] + tail2;
    var tail0 := "345" + ['.'] + tail1;
    assert s == "12" + ['.'] + tail0;
    KeepDigitsSkip("0001", '-', tail3);
    KeepDigitsSkip("778", '/', tail2);
    KeepDigitsSkip("345", '.', tail1);
    KeepDigitsSkip("12", '.', tail0);
    KeepDigitsFixpoint(tail3);
    assert KeepDigits(s) == "12" + "345" + "778" + "0001" + tail3;
    assert KeepDigits(s) == "12345778000100";
  }

  /** Digits before a separator survive, the separator goes. */
  lemma KeepDigitsSkip(digits: string, separator: char, rest: string)
    requires AllDigits(digits) && !IsDigit(separator)
    ensures KeepDigits(digits + [separator] + rest) == digits + KeepDigits(rest)
  {
    KeepDigitsAppend(digits, [separator] + rest);
    assert digits + [separator] + rest == digits + ([separator] + rest);
    KeepDigitsFixpoint(digits);
    assert KeepDigits([separator] + rest) == KeepDigits(rest) by {
      assert ([separator] + rest)[1..] == rest;
    }
  }

  /** A digit string of the wrong length is refused with the CNPJ message. */
  lemma ValidateCnpjTooShort()
    ensures ValidateCnpj("1234567800010") == Rejected([FieldError("cnpj", ValueError(CnpjMessage))])
  {
    KeepDigitsFixpoint("1234567800010");
  }

  /** A body whose CNPJ is already fourteen digits validates field by field. */
  lemma ValidateEmpresaWithStoredCnpj(body: EmpresaCreate, isEmail: string -> bool)
    requires |body.nome| >= MinNomeLength && IsCnpj(body.cnpj) && isEmail(Lower(body.email))
    ensures ValidateEmpresa(body, isEmail) ==
      Accepted(EmpresaCreate(Lower(body.nome), body.cnpj, body.endereco, Lower(body.email), body.telefone))
  {
    ValidateCnpjAcceptsStored(body.cnpj);
  }

  /** A validated company body validates to itself. */
  lemma ValidateEmpresaIdempotent(body: EmpresaCreate, isEmail: string -> bool)
    requires ValidateEmpresa(body, isEmail).Accepted?
    ensures ValidateEmpresa(ValidateEmpresa(body, isEmail).value, isEmail) == ValidateEmpresa(body, isEmail)
  {
    var v := ValidateEmpresa(body, isEmail).value;
    LowerFixpoint(v.nome);
    LowerFixpoint(v.email);
    KeepDigitsFixpoint(v.cnpj);
  }

  /** A validated obligation body validates to itself, in both shapes. */
  lemma ValidateObrigacaoIdempotent(create: ObrigacaoCreate, update: ObrigacaoUpdate)
    ensures ValidateObrigacaoCreate(create).Accepted? ==>
      ValidateObrigacaoCreate(ValidateObrigacaoCreate(create).value) == ValidateObrigacaoCreate(create)
    ensures ValidateObrigacaoUpdate(update).Accepted? ==>
      ValidateObrigacaoUpdate(ValidateObrigacaoUpdate(update).value) == ValidateObrigacaoUpdate(update)
  {
    LowerIdempotent(create.nome);
    LowerIdempotent(create.periodicidade);
    LowerIdempotent(update.nome);
    LowerIdempotent(update.periodicidade);
  }

  /** Mixed-case periodicity is accepted in its lower-case form. */
  lemma PeriodicidadeIgnoresCase()
    ensures ValidatePeriodicidade("Mensal") == Accepted("mensal")
    ensures ValidatePeriodicidade("TRIMESTRAL") == Accepted("trimestral")
    ensures ValidatePeriodicidade("semanal").Rejected?
  {
    assert Lower("Mensal") == "mensal";
    assert Lower("TRIMESTRAL") == "trimestral";
    assert Lower("semanal") == "semanal";
  }
}

=== FILE: text.dfy ===
/**
 String helpers the service relies on: ASCII lower-casing (Python's
 `str.lower` restricted to ASCII), keeping only the decimal digits of a
 string (the `re.sub(r"\D", "", value)` of the CNPJ validator), substring
 search (Python's `in` on strings), `", ".join` and the decimal rendering of
 an integer used inside f-strings.
 */
module Text {

  /* ---------------------------------------------------------------------- */
  /* Lower-casing                                                            */
  /* ---------------------------------------------------------------------- */

  predicate IsUpper(c: char) {
    'A' <= c <= 'Z'
  }

  function LowerChar(c: char): char {
    if IsUpper(c) then (c as int + 32) as char else c
  }

  /** No upper-case ASCII letter occurs in `s`. */
  predicate IsLowerCase(s: string) {
    forall i :: 0 <= i < |s| ==> !IsUpper(s[i])
  }

  /** ASCII lower-casing, character by character. */
  function Lower(s: string): (r: string)
    ensures |r| == |s|
    ensures IsLowerCase(r)
    ensures forall i :: 0 <= i < |s| && !IsUpper(s[i]) ==> r[i] == s[i]
    ensures forall i :: 0 <= i < |s| && IsUpper(s[i]) ==> r[i] != s[i] && LowerChar(s[i]) == r[i]
  {
    seq(|s|, i requires 0 <= i < |s| => LowerChar(s[i]))
  }

  /** Lower-casing leaves a string alone exactly when it is already lower case. */
  lemma LowerFixpoint(s: string)
    ensures Lower(s) == s <==> IsLowerCase(s)
  {
    if IsLowerCase(s) {
      assert forall i :: 0 <= i < |s| ==> Lower(s)[i] == s[i];
    }
  }

  /** Lower-casing is idempotent. */
  lemma LowerIdempotent(s: string)
    ensures Lower(Lower(s)) == Lower(s)
  {
    LowerFixpoint(Lower(s));
  }

  /* ---------------------------------------------------------------------- */
  /* Digits                                                                  */
  /* ---------------------------------------------------------------------- */

  predicate IsDigit(c: char) {
    '0' <= c <= '9'
  }

  predicate AllDigits(s: string) {
    forall i :: 0 <= i < |s| ==> IsDigit(s[i])
  }

  /** `s` with every non-digit character removed. */
  function KeepDigits(s: string): (r: string)
    ensures AllDigits(r)
    ensures |r| <= |s|
  {
    if s == [] then []
    else (if IsDigit(s[0]) then [s[0]] else []) + KeepDigits(s[1..])
  }

  /** Digit filtering distributes over concatenation: every part of the input
      contributes its own digits, in place. */
  lemma {:induction false} KeepDigitsAppend(a: string, b: string)
    ensures KeepDigits(a + b) == KeepDigits(a) + KeepDigits(b)
  {
    if a == [] {
      assert a + b == b;
    } else {
      assert (a + b)[0] == a[0];
      assert (a + b)[1..] == a[1..] + b;
      KeepDigitsAppend(a[1..], b);
    }
  }

  /** Filtering changes nothing exactly when the input is made of digits only. */
  lemma {:induction false} KeepDigitsFixpoint(s: string)
    ensures KeepDigits(s) == s <==> AllDigits(s)
  {
    if s != [] {
      KeepDigitsFixpoint(s[1..]);
      if AllDigits(s) {
        assert AllDigits(s[1..]) by {
          forall i | 0 <= i < |s[1..]| ensures IsDigit(s[1..][i]) {
            assert s[1..][i] == s[i + 1];
          }
        }
      }
    }
  }

  /** Filtering is idempotent. */
  lemma KeepDigitsIdempotent(s: string)
    ensures KeepDigits(KeepDigits(s)) == KeepDigits(s)
  {
    KeepDigitsFixpoint(KeepDigits(s));
  }

  /** Every digit of the input survives as often as it occurs, and no other
      character survives. */
  lemma {:induction false} KeepDigitsCounts(s: string, c: char)
    ensures multiset(KeepDigits(s))[c] == if IsDigit(c) then multiset(s)[c] else 0
  {
    if s != [] {
      KeepDigitsCounts(s[1..], c);
      assert s == [s[0]] + s[1..];
      assert multiset(s) == multiset([s[0]]) + multiset(s[1..]);
      var head := if IsDigit(s[0]) then [s[0]] else [];
      assert multiset(KeepDigits(s)) == multiset(head) + multiset(KeepDigits(s[1..]));
    }
  }

  /** `r` is obtained from `s` by deleting some elements, keeping the order of
      the rest. */
  predicate IsSubsequence<T(==)>(r: seq<T>, s: seq<T>)
    decreases |s|
  {
    if r == [] then true
    else if s == [] then false
    else (r[0] == s[0] && IsSubsequence(r[1..], s[1..])) || IsSubsequence(r, s[1..])
  }

  /** A subsequence of the tail is a subsequence of the whole. */
  lemma SubsequenceOfTail<T>(r: seq<T>, s: seq<T>)
    requires s != [] && IsSubsequence(r, s[1..])
    ensures IsSubsequence(r, s)
  {
  }

  /** The filtered string is a subsequence of its input: the digits keep their
      original order. */
  lemma {:induction false} KeepDigitsIsSubsequence(s: string)
    ensures IsSubsequence(KeepDigits(s), s)
  {
    if s != [] {
      KeepDigitsIsSubsequence(s[1..]);
      if IsDigit(s[0]) {
        assert KeepDigits(s) == [s[0]] + KeepDigits(s[1..]);
        assert KeepDigits(s)[1..] == KeepDigits(s[1..]);
      } else {
        assert KeepDigits(s) == KeepDigits(s[1..]);
      }
    }
  }

  /* ---------------------------------------------------------------------- */
  /* Substrings                                                              */
  /* ---------------------------------------------------------------------- */

  predicate StartsWith(s: string, p: string) {
    |p| <= |s| && s[..|p|] == p
  }

  /** `p` occurs in `s` starting at index `i`. */
  predicate OccursAt(s: string, p: string, i: int) {
    0 <= i && i + |p| <= |s| && s[i..i + |p|] == p
  }

  /** Python's `p in s` for strings: `p` is a contiguous piece of `s`. */
  predicate Contains(s: string, p: string)
    decreases |s|
  {
    StartsWith(s, p) || (s != [] && Contains(s[1..], p))
  }

  /** The scanning definition agrees with the existence of an occurrence. */
  lemma {:induction false} ContainsIff(s: string, p: string)
    ensures Contains(s, p) <==> exists i :: OccursAt(s, p, i)
    decreases |s|
  {
    if s == [] {
      if StartsWith(s, p) {
        assert OccursAt(s, p, 0);
      }
      if exists i :: OccursAt(s, p, i) {
        var i :| OccursAt(s, p, i);
        assert p == [];
      }
    } else {
      ContainsIff(s[1..], p);
      if StartsWith(s, p) {
        assert OccursAt(s, p, 0);
      }
      if Contains(s[1..], p) {
        var i :| OccursAt(s[1..], p, i);
        assert s[i + 1..i + 1 + |p|] == s[1..][i..i + |p|];
        assert OccursAt(s, p, i + 1);
      }
      if exists i :: OccursAt(s, p, i) {
        var i :| OccursAt(s, p, i);
        if i == 0 {
          assert StartsWith(s, p);
        } else {
          assert s[1..][i - 1..i - 1 + |p|] == s[i..i + |p|];
          assert OccursAt(s[1..], p, i - 1);
        }
      }
    }
  }

  /* ---------------------------------------------------------------------- */
  /* Joining and decimal rendering                                           */
  /* ---------------------------------------------------------------------- */

  /** Python's `sep.join(parts)`. */
  function Join(parts: seq<string>, sep: string): string {
    if |parts| == 0 then ""
    else if |parts| == 1 then parts[0]
    else parts[0] + sep + Join(parts[1..], sep)
  }

  /** A join starts with its first part. */
  lemma JoinStartsWithFirst(parts: seq<string>, sep: string)
    requires |parts| > 0
    ensures StartsWith(Join(parts, sep), parts[0])
  {
    if |parts| > 1 {
      assert Join(parts, sep) == parts[0] + (sep + Join(parts[1..], sep));
    }
  }

  /** The summed length of `parts`. */
  function TotalLength(parts: seq<string>): nat {
    if parts == [] then 0 else |parts[0]| + TotalLength(parts[1..])
  }

  /** A join holds every part once and one separator between neighbours. */
  lemma {:induction false} JoinLength(parts: seq<string>, sep: string)
    requires |parts| > 0
    ensures |Join(parts, sep)| == TotalLength(parts) + (|parts| - 1) * |sep|
    decreases |parts|
  {
    if |parts| > 1 {
      JoinLength(parts[1..], sep);
    }
  }

  /** Where part `j` sits in the join: after the parts before it and one
      separator after each of them. */
  lemma {:induction false} JoinOccurs(parts: seq<string>, sep: string, j: int) returns (i: int)
    requires 0 <= j < |parts|
    ensures OccursAt(Join(parts, sep), parts[j], i)
    ensures i == TotalLength(parts[..j]) + j * |sep|
    decreases j
  {
    if j == 0 {
      if |parts| > 1 {
        assert Join(parts, sep) == parts[0] + (sep + Join(parts[1..], sep));
      }
      i := 0;
    } else {
      var rest := Join(parts[1..], sep);
      var shift := |parts[0] + sep|;
      assert Join(parts, sep) == (parts[0] + sep) + rest;
      assert parts[1..][j - 1] == parts[j];
      var k := JoinOccurs(parts[1..], sep, j - 1);
      assert parts[..j][1..] == parts[1..][..j - 1];
      assert TotalLength(parts[..j]) == |parts[0]| + TotalLength(parts[1..][..j - 1]);
      assert Join(parts, sep)[shift + k..shift + k + |parts[j]|] == rest[k..k + |parts[j]|];
      i := shift + k;
    }
  }

  /** Python's `part in sep.join(parts)` holds for every part. */
  lemma JoinContainsParts(parts: seq<string>, sep: string)
    ensures forall j :: 0 <= j < |parts| ==> Contains(Join(parts, sep), parts[j])
  {
    forall j | 0 <= j < |parts|
      ensures Contains(Join(parts, sep), parts[j])
    {
      var i := JoinOccurs(parts, sep, j);
      ContainsIff(Join(parts, sep), parts[j]);
    }
  }

  /** An occurrence survives putting text in front. */
  lemma ContainsAfterPrefix(prefix: string, s: string, p: string)
    requires Contains(s, p)
    ensures Contains(prefix + s, p)
  {
    ContainsIff(s, p);
    var i :| OccursAt(s, p, i);
    assert (prefix + s)[|prefix| + i..|prefix| + i + |p|] == s[i..i + |p|];
    assert OccursAt(prefix + s, p, |prefix| + i);
    ContainsIff(prefix + s, p);
  }

  /** Prefixing both sides keeps a prefix relation. */
  lemma StartsWithPrepend(prefix: string, s: string, p: string)
    requires StartsWith(s, p)
    ensures StartsWith(prefix + s, prefix + p)
  {
    assert (prefix + s)[..|prefix + p|] == prefix + s[..|p|];
  }

  function DigitChar(d: nat): char
    requires d < 10
  {
    ('0' as int + d) as char
  }

  function DigitValue(c: char): nat
    requires IsDigit(c)
  {
    c as int - '0' as int
  }

  /** Python's `str(n)` for a non-negative integer. */
  function NatToDecimal(n: nat): (r: string)
    ensures |r| >= 1 && AllDigits(r)
    ensures r[0] == '0' ==> n == 0 && r == "0"
  {
    if n < 10 then [DigitChar(n)] else NatToDecimal(n / 10) + [DigitChar(n % 10)]
  }

  /** Python's `str(n)` for any integer: a minus sign before the magnitude. */
  function IntToDecimal(n: int): string {
    if n < 0 then "-" + NatToDecimal(-n) else NatToDecimal(n)
  }

  /** The number a string of decimal digits denotes. */
  function DecimalValue(s: string): nat
    requires AllDigits(s)
  {
    if s == [] then 0 else DecimalValue(s[..|s| - 1]) * 10 + DigitValue(s[|s| - 1])
  }

  /** The rendering can be read back: it denotes the number it renders. */
  lemma {:induction false} NatToDecimalRoundTrip(n: nat)
    ensures DecimalValue(NatToDecimal(n)) == n
  {
    if n >= 10 {
      NatToDecimalRoundTrip(n / 10);
      var r := NatToDecimal(n);
      assert r[..|r| - 1] == NatToDecimal(n / 10);
    }
  }

  /** Distinct numbers render differently. */
  lemma NatToDecimalInjective(m: nat, n: nat)
    ensures NatToDecimal(m) == NatToDecimal(n) ==> m == n
  {
    NatToDecimalRoundTrip(m);
    NatToDecimalRoundTrip(n);
  }

  /** Distinct integers render differently: the sign is only ever written
      for negative numbers and a digit string never starts with one. */
  lemma IntToDecimalInjective(m: int, n: int)
    ensures IntToDecimal(m) == IntToDecimal(n) ==> m == n
  {
    if IntToDecimal(m) == IntToDecimal(n) {
      if m < 0 && n < 0 {
        assert NatToDecimal(-m) == IntToDecimal(m)[1..];
        assert NatToDecimal(-n) == IntToDecimal(n)[1..];
        NatToDecimalInjective(-m, -n);
      } else if m >= 0 && n >= 0 {
        NatToDecimalInjective(m, n);
      }
    }
  }
}
